=== FILE: README.md ===
# html-embed-stylesheets: a Dafny model of `embedStylesheets`

`embedStylesheets(html, opts)` takes an HTML document and returns it with its
external stylesheets inlined. The function does five things:

1. It finds the `<link>` elements matched by `type="text/css"` or `rel="stylesheet"`.
   It keeps those whose `href` is present and not blank after trimming. It
   records their percent-encoded hrefs in document order and removes them.
   Matched links with a blank `href` stay in the document.
2. It removes stylesheet preload hints (`rel="preload" as="style"`) and
   prefetch hints (`rel="prefetch"` whose href contains `.css`).
3. When `opts.resolveTo` is truthy, it resolves each source against that
   base. It then adds the sources to a `Set`, giving the distinct URLs in
   first-occurrence order (`stylesheetUrls`).
4. When `opts.download` is truthy (the default), it requests each URL in
   turn. A reply counts as a stylesheet only if the status is 2xx and the
   content type contains `text/css`. Such a body is stored, rewritten against
   its own URL when a base is set. Every other URL is recorded in `notFounds`.
5. It appends one `<style>` per stored stylesheet to `<head>` and returns the
   document and the three lists.

The model is pure. The document is two flat runs of nodes (head, then body).
Four library calls are function parameters:
- the URL encoder (`encode`, for `encodeurl`);
- the URL resolver (`resolve`, for `url.resolve`);
- the HTTP client (`fetch`, an oracle from URL to `Reply`);
- the CSS URL rewriter (`rewrite`, for `css-absolutely`).

A `Reply` is either a response (status, optional content type, body) or a
transport failure. A transport failure rejects the returned promise, so
`EmbedStylesheets` returns a `Result` whose `Failure` carries the URL whose
request failed.

Files, one module each:
- `js_text.dfy`: JavaScript `trim` and `indexOf`, over code points.
- `seqs.dfy`: filtering, subsequences, distinctness, and the insertion-ordered set.
- `dom.dfy`: nodes and documents.
- `options.dfy`: option merging.
- `discovery.dfy`: link filter and hint removal.
- `resolution.dfy`: URL collection.
- `fetching.dfy`: download loop.
- `embedding.dfy`: head append.
- `pipeline.dfy`: the whole function.
- `scenarios.dfy`: concrete documents from the discovery tests.
- `wrappers.dfy`: `Option` and `Result`.

## Model

| member | source | states |
|---|---|---|
| JsText.Trim | src/index.js:46 | The trimmed href is the slice of the href left after removing an all-whitespace prefix and an all-whitespace suffix (ECMAScript WhiteSpace and LineTerminator). It is empty exactly when the href is all whitespace; otherwise it starts and ends on a non-whitespace character. |
| JsText.IndexOf | src/index.js:79 | `indexOf` returns -1 exactly when the needle occurs nowhere. Otherwise it returns a position, counted in code points, where the needle occurs, and no earlier position matches. |
| Discovery.SweepLinks | src/index.js:43-49 | The filter pass leaves exactly the nodes that are not consumed links. It pushes one encoded href per consumed link, in document order. |
| Discovery.ConsumedIff | src/index.js:44-48 | A matched link contributes a source iff its href is present and holds a non-whitespace character. Absent, empty and whitespace-only hrefs contribute nothing. |
| Discovery.ConsumedRunVanishes | src/index.js:43-49 | A run made only of consumed links is removed entirely and yields one encoded href per link, in order. |
| Discovery.RemoveHints | src/index.js:51-53 | Exactly the preload and prefetch stylesheet hints are removed: the result is the run filtered to its non-hint nodes, each kept once and in its original order. |
| Options.Merge | src/index.js:7-31 | Downloading is on iff the key is omitted or given as `true`. A base is in force iff `resolveTo` is given as a non-empty string, and the base is that string. A key given as `null` or `undefined` overrides its default. |
| Seqs.Distinct | src/index.js:57-63 | The `Set` iteration order holds every added element exactly once and nothing else. |
| Seqs.DistinctInFirstOccurrenceOrder | src/index.js:57-63 | The `Set` lists elements in order of their first insertion. |
| Seqs.DistinctOfNoDup | src/index.js:57-63 | Adding already-distinct elements to an empty `Set` lists them unchanged. |
| Resolution.CollectUrls | src/index.js:57-63 | The collected URLs are distinct. Every source's located form is among them, and each of them is the located form of some source. |
| Resolution.CollectUrlsIsDistinct | src/index.js:57-63 | The resolve-then-add loop equals the distinct located sources. |
| Resolution.UnresolvedWithoutBase | src/index.js:59-62 | Without a truthy `resolveTo`, the URLs are exactly the distinct encoded hrefs, with no resolution applied. |
| Resolution.UrlsInDiscoveryOrder | src/index.js:57-63 | A URL listed earlier was first produced by an earlier source. |
| Fetching.UsableIff | src/index.js:78-79 | A reply is a success iff it is a response with status in [200,300) and a content type that is present and contains `text/css`. |
| Fetching.DownloadAll | src/index.js:66-90 | The loop rejects iff some URL fails in transport, and then with the first such URL. Otherwise the not-founds are the URLs with unusable replies, in order. The stylesheets are the stored bodies of the usable URLs, in order. The two list lengths add up to the number of URLs. |
| Fetching.PartitionOfDistinctUrls | src/index.js:69-89 | For distinct URLs, each lands in exactly one list: it is a not-found iff its reply is unusable. The not-founds are an order-preserving, repeat-free subsequence of the URLs. |
| Embedding.AppendStyles | src/index.js:93-95 | The original head is kept as a prefix, followed by exactly one style node per stylesheet, in order. |
| Embedding.AppendedStylesReadBack | src/index.js:93-95 | Reading the style blocks back out of the new head gives the old ones followed by the stylesheets, in order. |
| Embedding.EmbedInto | src/index.js:92-95 | The new head is the old head followed by one style node per stylesheet, in order. The body is untouched. |
| Pipeline.EmbedStylesheets | src/index.js:30-103 | The call rejects only when downloading is on, and then with a URL whose request failed in transport. When it fulfils, `stylesheetUrls` has no duplicates. |
| Pipeline.SourcesAreConsumedHrefs | src/index.js:43-49 | `sources` lists the encoded hrefs of the consumed links in document order, one per consumed link. |
| Pipeline.StrippedRun | src/index.js:43-53 | On one run of nodes, discovery leaves the run filtered to the nodes that are neither consumed links nor hints, each kept once and in order. |
| Pipeline.StrippedDocument | src/index.js:43-53 | The stripped head and body are the original head and body each filtered to their surviving nodes: no consumed link, no hint, everything else in its original order. |
| Pipeline.OutputDocument | src/index.js:43-98 | The returned body is the original body without consumed links and hints, so blank-href links stay. The returned head is the original head filtered the same way, followed by one style block per stored stylesheet, in order. |
| Pipeline.NoDownloadNoFetch | src/index.js:64-95 | With `download` falsy, nothing is fetched. The result has no stylesheets and no not-founds, and no style is appended. |
| Pipeline.RejectsOnTransportError | src/index.js:68-76 | The promise rejects iff downloading is on and some URL fails in transport. It rejects with the first such URL. |
| Pipeline.UrlsAreDistinctSources | src/index.js:57-63 | `stylesheetUrls` equals the distinct located sources and lists every source's located form. Without a base (also when `resolveTo` is omitted), it equals the distinct encoded hrefs. |
| Pipeline.DownloadPartition | src/index.js:68-89 | `stylesheets` and `notFounds` together account for every URL exactly once. `notFounds` is an order-preserving subsequence of `stylesheetUrls`. A body is rewritten against its own URL iff a base is set, and is otherwise stored unchanged. |
| Pipeline.CleanDocumentUnchanged | src/index.js:43-102 | A document without consumed links or hints comes back unchanged, with three empty lists. |
| Pipeline.SecondPassIsIdentity | src/index.js:30-103 | Running the function again on its own output finds nothing and returns the document unchanged, whatever the options. |
| Scenarios.SingleTypeLinkOneUrl | test/index.js:20-23 | One `type="text/css"` link with a non-blank href yields exactly one URL, its encoded href, and is removed. |
| Scenarios.SingleRelLinkOneUrl | test/index.js:25-28 | One `rel="stylesheet"` link with a non-blank href yields exactly one URL, its encoded href, and is removed. |
| Scenarios.BlankHrefsYieldNothing | test/index.js:30-43 | Links with no href, an empty href or any whitespace-only href (the test uses one space) yield no URL and stay in the document. |
| Scenarios.DuplicateLinksYieldOneUrl | test/index.js:45-53 | Three links to `main.css` (by type, by rel, by both) yield one URL, and all three are removed. |

## Behaviour notes

What `src/index.js` does, and so what the model does:
- The code has no `@import` discovery and no recursion into fetched stylesheets.
- The code does no media-query wrapping and no replace-in-place or insert-before placement. Styles are appended to `<head>`.
- Duplicate links are all removed. The first one is not kept as a placeholder.
- A transport failure is not turned into a not-found. `request-promise` with `simple: false` only stops rejecting on status codes, so the awaited request rejects and so does the whole call. `DownloadAll` and `RejectsOnTransportError` model this.
- Matched links whose `href` is blank are not removed; `OutputDocument` states this.
- Every `link[rel="preload"][as="style"]` is removed, whatever its href. Prefetch hints are removed only when their href contains `.css`.

## Left out

- HTML parsing and serialization (cheerio, src/index.js:33-37 and 98). The model starts from parsed nodes and returns nodes, not text. Nested markup is flattened into a head run and a body run. Entity decoding and lower-casing of tag and attribute names happen in the parser. The stylesheet text interpolated into `<style>…</style>` is re-parsed as HTML, so a body containing `</style>` would be split. That is parser behaviour and is not modelled.
- Percent-encoding (`encodeurl`) and URL resolution (`url.resolve`) are function parameters. The resolution examples in test/index.js:56-118 test that library, not repository code.
- The HTTP client is an oracle from URL to reply. Its request options (gzip, utf-8 decoding) and the error object it rejects with are not modelled. The rejection carries the URL instead.
- The CSS URL rewriter (`css-absolutely`) is a function parameter.
- Async/await sequencing is modelled as a sequential fold over the URLs.
- JsText.IndexOf: strings are sequences of code points, not UTF-16 code units, so a position after a character above U+FFFF (an emoji, say) is one less per such character than JavaScript's. The pipeline only tests the result against -1 (src/index.js:79), which is unaffected, and every character `trim` strips is below U+FFFF.
- Options.Merge: option values other than strings for `resolveTo` and booleans for `download` are not modelled. Numbers and objects would be read by truthiness, and `url.resolve` would throw on a non-string base.
- The model assumes the parsed document has exactly one `<head>`, to which the styles are appended once. `$('head').append(...)` appends once per matched `head` element, so with htmlparser2, which adds no implied `<head>` to a fragment, a document without one gets no styles and one with several gets them several times.
- Attribute selectors compare values exactly. The selector engine's case-insensitive matching of some attribute values (such as `type` and `rel`) in HTML mode is library behaviour and is not modelled.
- The test and end-to-end harnesses (test/index.js, e2e/e2e.js) are mocking, file I/O and fixture comparison. Only the discovery tests at test/index.js:20-53 are restated, as `Scenarios`, each for any href of the kind the test uses.

=== FILE: discovery.dfy ===
/**
 * Link discovery (src/index.js:43-53): the stylesheet links with a usable
 * `href` are collected as encoded sources and removed; the links whose `href`
 * is missing or blank stay; stylesheet preload and prefetch hints are removed.
 */
module Discovery {
  import opened JsText
  import opened Seqs
  import opened Dom

  /** Selector `link[type="text/css"],link[rel="stylesheet"]`. */
  predicate IsStylesheetLink(n: Node) {
    IsLink(n) && (AttrIs(n, "type", "text/css") || AttrIs(n, "rel", "stylesheet"))
  }

  /** `link.attribs.href && link.attribs.href.trim()`, both read for JavaScript truthiness. */
  predicate HasUsableHref(n: Node) {
    n.Element? && "href" in n.attrs && n.attrs["href"] != "" && Trim(n.attrs["href"]) != ""
  }

  /** A link the filter keeps: it contributes a source and is removed. */
  predicate IsConsumed(n: Node) {
    IsStylesheetLink(n) && HasUsableHref(n)
  }

  /** The raw `href` of an element, or the empty string. */
  function Href(n: Node): string {
    if n.Element? && "href" in n.attrs then n.attrs["href"] else ""
  }

  /** What one pass of the link filter leaves behind. */
  datatype Sweep = Sweep(remaining: seq<Node>, sources: seq<string>)

  /**
   * The `.filter(...).remove()` pass over a run of nodes: the callback pushes
   * the encoded `href` of every kept link, and the kept links are removed.
   * The remaining nodes are exactly the nodes that are not consumed links, and
   * the sources are the encoded hrefs of the consumed links, in order.
   */
  function SweepLinks(nodes: seq<Node>, encode: string -> string): (r: Sweep)
    ensures r.remaining == Filter(nodes, Not(IsConsumed))
    ensures |r.sources| == |Filter(nodes, IsConsumed)|
    ensures forall i :: 0 <= i < |r.sources| ==>
      r.sources[i] == encode(Href(Filter(nodes, IsConsumed)[i]))
  {
    if |nodes| == 0 then Sweep([], [])
    else
      var rest := SweepLinks(nodes[1..], encode);
      if IsConsumed(nodes[0]) then Sweep(rest.remaining, [encode(Href(nodes[0]))] + rest.sources)
      else Sweep([nodes[0]] + rest.remaining, rest.sources)
  }

  /**
   * A matched link contributes a source exactly when its `href` is present and
   * holds at least one non-whitespace character: absent, empty and
   * whitespace-only hrefs contribute nothing.
   */
  lemma ConsumedIff(n: Node)
    ensures IsConsumed(n) <==>
      IsStylesheetLink(n) && "href" in n.attrs && !AllWhiteSpace(n.attrs["href"])
  {
  }

  /** A run made only of consumed links vanishes, leaving one source per link, in order. */
  lemma ConsumedRunVanishes(nodes: seq<Node>, encode: string -> string)
    requires forall i :: 0 <= i < |nodes| ==> IsConsumed(nodes[i])
    ensures SweepLinks(nodes, encode).remaining == []
    ensures SweepLinks(nodes, encode).sources == seq(|nodes|, i requires 0 <= i < |nodes| => encode(Href(nodes[i])))
  {
    FilterKeepsAll(nodes, IsConsumed);
    FilterKeepsNone(nodes, Not(IsConsumed));
  }

  /** Selector `link[rel="preload"][as="style"]`. */
  predicate IsPreloadHint(n: Node) {
    IsLink(n) && AttrIs(n, "rel", "preload") && AttrIs(n, "as", "style")
  }

  /** Selector `link[rel="prefetch"][href*=".css"]`. */
  predicate IsPrefetchHint(n: Node) {
    IsLink(n) && AttrIs(n, "rel", "prefetch") && "href" in n.attrs && Contains(n.attrs["href"], ".css")
  }

  predicate IsStylesheetHint(n: Node) {
    IsPreloadHint(n) || IsPrefetchHint(n)
  }

  /** A node that discovery leaves in the document: neither a consumed link nor a hint. */
  predicate Survives(n: Node) {
    !IsConsumed(n) && !IsStylesheetHint(n)
  }

  /**
   * The two hint removals, one after the other. Exactly the hints go: the
   * result is the run filtered to its non-hint nodes, in order.
   */
  function RemoveHints(nodes: seq<Node>): (r: seq<Node>)
    ensures r == Filter(nodes, Not(IsStylesheetHint))
    ensures forall i :: 0 <= i < |r| ==> !IsStylesheetHint(r[i])
    ensures forall i :: 0 <= i < |nodes| && !IsStylesheetHint(nodes[i]) ==> nodes[i] in r
    ensures IsSubsequence(r, nodes)
  {
    var withoutPreloads := Filter(nodes, Not(IsPreloadHint));
    var r := Filter(withoutPreloads, Not(IsPrefetchHint));
    FilterTwice(nodes, Not(IsPreloadHint), Not(IsPrefetchHint));
    FilterExt(nodes, And(Not(IsPreloadHint), Not(IsPrefetchHint)), Not(IsStylesheetHint));
    FilterIsSubsequence(nodes, Not(IsStylesheetHint));
    r
  }
}

=== FILE: dom.dfy ===
/**
 * The parsed document, flattened. The HTML parser and serializer are not part
 * of this model: a document is the sequence of nodes under `<head>` followed
 * by the sequence under `<body>`, in document order.
 */
module Dom {

  /**
   * A node: an element with its attributes (names lower-cased by the parser),
   * a `<style>` block holding CSS text, or any other content.
   */
  datatype Node =
    | Element(tag: string, attrs: map<string, string>)
    | Style(css: string)
    | Content(text: string)

  /** A parsed page with exactly one `<head>`: its children, then everything after it. */
  datatype Document = Document(head: seq<Node>, body: seq<Node>)

  /** All nodes of the document, in document order. */
  function Nodes(doc: Document): seq<Node> {
    doc.head + doc.body
  }

  /** Attribute selector `[name="value"]`: the attribute is present with exactly that value. */
  predicate AttrIs(n: Node, name: string, value: string) {
    n.Element? && name in n.attrs && n.attrs[name] == value
  }

  /** Type selector `link`. */
  predicate IsLink(n: Node) {
    n.Element? && n.tag == "link"
  }
}

=== FILE: embedding.dfy ===
/**
 * Embedding (src/index.js:93-95): one `<style>` element per stored
 * stylesheet is appended to `<head>`, in order.
 */
module Embedding {
  import opened Dom

  /**
   * The `$('head').append(...)` loop. The original head is kept as a prefix
   * and followed by exactly one style node per stylesheet, in order.
   */
  function AppendStyles(head: seq<Node>, sheets: seq<string>): (r: seq<Node>)
    ensures |r| == |head| + |sheets|
    ensures r[..|head|] == head
    ensures forall i :: 0 <= i < |sheets| ==> r[|head| + i] == Style(sheets[i])
    decreases |sheets|
  {
    if |sheets| == 0 then head
    else AppendStyles(head + [Style(sheets[0])], sheets[1..])
  }

  /** One style node per stylesheet, in order. */
  function StyleBlocks(sheets: seq<string>): seq<Node> {
    seq(|sheets|, i requires 0 <= i < |sheets| => Style(sheets[i]))
  }

  /** The CSS texts of the style nodes in a run of nodes, in order. */
  function StylesIn(nodes: seq<Node>): seq<string> {
    if |nodes| == 0 then []
    else (if nodes[0].Style? then [nodes[0].css] else []) + StylesIn(nodes[1..])
  }

  lemma {:induction false} StylesInConcat(a: seq<Node>, b: seq<Node>)
    ensures StylesIn(a + b) == StylesIn(a) + StylesIn(b)
  {
    if |a| > 0 {
      assert (a + b)[1..] == a[1..] + b;
      StylesInConcat(a[1..], b);
    } else {
      assert a + b == b;
    }
  }

  /** Reading the style blocks back out of the new head gives the old ones followed by the stylesheets. */
  lemma {:induction false} AppendedStylesReadBack(head: seq<Node>, sheets: seq<string>)
    ensures StylesIn(AppendStyles(head, sheets)) == StylesIn(head) + sheets
    decreases |sheets|
  {
    if |sheets| > 0 {
      AppendedStylesReadBack(head + [Style(sheets[0])], sheets[1..]);
      StylesInConcat(head, [Style(sheets[0])]);
      assert StylesIn([Style(sheets[0])]) == [sheets[0]];
      assert [sheets[0]] + sheets[1..] == sheets;
    }
  }

  /**
   * The document with the stylesheets appended to its head. Its head is the
   * old head followed by one style node per stylesheet, its body is
   * untouched, and every node it holds was already there or is a new style node.
   */
  function EmbedInto(doc: Document, sheets: seq<string>): (r: Document)
    ensures r.head == doc.head + StyleBlocks(sheets)
    ensures r.body == doc.body
    ensures forall n :: n in Nodes(r) ==> n in Nodes(doc) || n.Style?
    ensures forall n :: n in Nodes(doc) ==> n in Nodes(r)
  {
    var r := doc.(head := AppendStyles(doc.head, sheets));
    assert r.head == doc.head + StyleBlocks(sheets) by {
      assert r.head[..|doc.head|] == doc.head;
    }
    r
  }
}

=== FILE: fetching.dfy ===
/**
 * Downloading (src/index.js:66-90): the URLs are requested one at a time, in
 * order; a usable reply's body is stored, rewritten against its own URL when
 * a base is set, and every other URL is recorded as not found. The HTTP
 * client is an oracle from URL to reply.
 */
module Fetching {
  import opened Wrappers
  import opened JsText
  import opened Seqs

  /**
   * What `request(...)` settles with: a response of any status (status codes
   * never reject, since `simple` is false), or a transport failure, which
   * rejects the awaited promise.
   */
  datatype Reply =
    | Response(status: int, contentType: Option<string>, body: string)
    | TransportError

  /** `headers['content-type'] && headers['content-type'].indexOf('text/css') !== -1`. */
  predicate IsCssType(contentType: Option<string>) {
    contentType.Some? && contentType.value != "" && IndexOf(contentType.value, "text/css") != -1
  }

  /** The success test of src/index.js:78-79. */
  predicate IsUsable(reply: Reply) {
    reply.Response? && reply.status >= 200 && reply.status < 300 && IsCssType(reply.contentType)
  }

  /**
   * A reply is usable exactly when it is a response with a 2xx status whose
   * content type is present and contains `text/css`.
   */
  lemma UsableIff(reply: Reply)
    ensures IsUsable(reply) <==>
      && reply.Response?
      && 200 <= reply.status < 300
      && reply.contentType.Some?
      && exists i :: MatchesAt(reply.contentType.value, "text/css", i)
  {
    if reply.Response? && reply.contentType == Some("") {
      assert forall i :: !MatchesAt("", "text/css", i);
    }
  }

  /** The URLs whose replies are usable, as a predicate over URLs. */
  function Usable(fetch: string -> Reply): string -> bool {
    u => IsUsable(fetch(u))
  }

  /** The body stored for a usable URL: rewritten against the URL itself when a base is set. */
  function Stored(u: string, fetch: string -> Reply, base: Option<string>, rewrite: (string, string) -> string): string {
    var body := if fetch(u).Response? then fetch(u).body else "";
    if base.Some? then rewrite(body, u) else body
  }

  /** The two lists the download loop fills. */
  datatype Downloads = Downloads(stylesheets: seq<string>, notFounds: seq<string>)

  /** No URL of `urls` fails in transport. */
  predicate AllReachable(urls: seq<string>, fetch: string -> Reply) {
    forall i :: 0 <= i < |urls| ==> fetch(urls[i]).Response?
  }

  /** `urls[k]` is the first URL whose request fails in transport. */
  predicate FirstUnreachable(urls: seq<string>, fetch: string -> Reply, k: int) {
    0 <= k < |urls| && fetch(urls[k]).TransportError? && AllReachable(urls[..k], fetch)
  }

  /**
   * The download loop. It rejects with the first URL whose request fails in
   * transport. Otherwise the URLs are partitioned: the not-founds are the
   * URLs with unusable replies, in order, and the stylesheets are the stored
   * bodies of the usable ones, in order, so every URL lands in exactly one list.
   */
  function DownloadAll(urls: seq<string>, fetch: string -> Reply, base: Option<string>,
                       rewrite: (string, string) -> string): (r: Result<Downloads, string>)
    ensures r.Success? <==> AllReachable(urls, fetch)
    ensures r.Failure? ==> exists k :: FirstUnreachable(urls, fetch, k) && urls[k] == r.error
    ensures r.Success? ==> |r.value.stylesheets| + |r.value.notFounds| == |urls|
    ensures r.Success? ==> r.value.notFounds == Filter(urls, Not(Usable(fetch)))
    ensures r.Success? ==> |r.value.stylesheets| == |Filter(urls, Usable(fetch))|
    ensures r.Success? ==> forall i :: 0 <= i < |r.value.stylesheets| ==>
      r.value.stylesheets[i] == Stored(Filter(urls, Usable(fetch))[i], fetch, base, rewrite)
  {
    if |urls| == 0 then Success(Downloads([], []))
    else
      var u := urls[0];
      if fetch(u).TransportError? then
        assert FirstUnreachable(urls, fetch, 0);
        Failure(u)
      else
        match DownloadAll(urls[1..], fetch, base, rewrite)
        case Failure(e) =>
          var k :| FirstUnreachable(urls[1..], fetch, k) && urls[1..][k] == e;
          UnreachableCons(urls, fetch, k);
          Failure(e)
        case Success(d) =>
          ReachableCons(urls, fetch);
          if IsUsable(fetch(u)) then
            assert Filter(urls, Usable(fetch)) == [u] + Filter(urls[1..], Usable(fetch));
            Success(Downloads([Stored(u, fetch, base, rewrite)] + d.stylesheets, d.notFounds))
          else
            assert Filter(urls, Not(Usable(fetch))) == [u] + Filter(urls[1..], Not(Usable(fetch)));
            Success(Downloads(d.stylesheets, [u] + d.notFounds))
  }

  /** A first failure in the tail, behind a reachable head, is the first failure of the whole. */
  lemma UnreachableCons(urls: seq<string>, fetch: string -> Reply, k: int)
    requires |urls| > 0 && fetch(urls[0]).Response?
    requires FirstUnreachable(urls[1..], fetch, k)
    ensures FirstUnreachable(urls, fetch, k + 1) && urls[k + 1] == urls[1..][k]
  {
    assert urls[..k + 1] == [urls[0]] + urls[1..][..k];
    ReachableCons(urls[..k + 1], fetch);
  }

  lemma ReachableCons(urls: seq<string>, fetch: string -> Reply)
    requires |urls| > 0
    ensures AllReachable(urls, fetch) <==> fetch(urls[0]).Response? && AllReachable(urls[1..], fetch)
  {
    if fetch(urls[0]).Response? && AllReachable(urls[1..], fetch) {
      forall i | 0 <= i < |urls| ensures fetch(urls[i]).Response? {
        if i > 0 {
          assert urls[i] == urls[1..][i - 1];
        }
      }
    }
  }

  /**
   * When the URLs are distinct, a completed download files each of them in
   * exactly one list: a URL is a not-found exactly when its reply is
   * unusable, and the not-founds keep the URLs' order without repeats.
   */
  lemma PartitionOfDistinctUrls(urls: seq<string>, fetch: string -> Reply, base: Option<string>,
                                rewrite: (string, string) -> string)
    requires NoDup(urls)
    requires DownloadAll(urls, fetch, base, rewrite).Success?
    ensures var d := DownloadAll(urls, fetch, base, rewrite).value;
      && IsSubsequence(d.notFounds, urls)
      && NoDup(d.notFounds)
      && (forall i :: 0 <= i < |urls| ==> (urls[i] in d.notFounds <==> !IsUsable(fetch(urls[i]))))
      && |d.stylesheets| == |urls| - |d.notFounds|
  {
    var d := DownloadAll(urls, fetch, base, rewrite).value;
    FilterIsSubsequence(urls, Not(Usable(fetch)));
    FilterNoDup(urls, Not(Usable(fetch)));
    forall i | 0 <= i < |urls| ensures urls[i] in d.notFounds <==> !IsUsable(fetch(urls[i])) {
      FilterMembership(urls, Not(Usable(fetch)), urls[i]);
    }
  }
}

=== FILE: js_text.dfy ===
/**
 * The two JavaScript string operations the pipeline relies on:
 * `String.prototype.trim` and `String.prototype.indexOf`. Strings are
 * sequences of code points, not UTF-16 code units, so a position found after
 * a character above U+FFFF is smaller than JavaScript's; the pipeline only
 * tests `indexOf` against -1, and every character `trim` strips lies below U+FFFF.
 */
module JsText {

  /** The characters `trim` strips: ECMAScript WhiteSpace and LineTerminator code points. */
  predicate IsWhiteSpace(c: char) {
    || c == '\t' || c == '\n' || c == '\U{000B}' || c == '\U{000C}' || c == '\r'
    || c == ' ' || c == '\U{00A0}' || c == '\U{1680}'
    || ('\U{2000}' <= c <= '\U{200A}')
    || c == '\U{2028}' || c == '\U{2029}' || c == '\U{202F}' || c == '\U{205F}'
    || c == '\U{3000}' || c == '\U{FEFF}'
  }

  predicate AllWhiteSpace(s: string) {
    forall i :: 0 <= i < |s| ==> IsWhiteSpace(s[i])
  }

  /** Length of the longest all-whitespace prefix of `s`. */
  function LeadingWhiteSpace(s: string): (k: nat)
    ensures k <= |s|
    ensures AllWhiteSpace(s[..k])
    ensures k < |s| ==> !IsWhiteSpace(s[k])
  {
    if |s| == 0 || !IsWhiteSpace(s[0]) then 0
    else
      var k := 1 + LeadingWhiteSpace(s[1..]);
      assert s[..k] == [s[0]] + s[1..][..k - 1];
      k
  }

  /** Length of the longest all-whitespace suffix of `s`. */
  function TrailingWhiteSpace(s: string): (k: nat)
    ensures k <= |s|
    ensures AllWhiteSpace(s[|s| - k..])
    ensures k < |s| ==> !IsWhiteSpace(s[|s| - k - 1])
  {
    if |s| == 0 || !IsWhiteSpace(s[|s| - 1]) then 0
    else
      var init := s[..|s| - 1];
      var k := 1 + TrailingWhiteSpace(init);
      assert s[|s| - k..] == init[|init| - (k - 1)..] + [s[|s| - 1]];
      k
  }

  /** True when `needle` occurs in `hay` starting at position `i`. */
  predicate MatchesAt(hay: string, needle: string, i: int) {
    0 <= i && i + |needle| <= |hay| && hay[i..i + |needle|] == needle
  }

  /**
   * `s.trim()`: `s` without its leading and trailing whitespace. The result is
   * the slice of `s` between the two whitespace runs; it is empty exactly when
   * `s` is all whitespace, and otherwise starts and ends on a non-whitespace character.
   */
  function Trim(s: string): (r: string)
    ensures |r| <= |s|
    ensures exists i :: MatchesAt(s, r, i) && AllWhiteSpace(s[..i]) && AllWhiteSpace(s[i + |r|..])
    ensures r == [] <==> AllWhiteSpace(s)
    ensures r != [] ==> !IsWhiteSpace(r[0]) && !IsWhiteSpace(r[|r| - 1])
  {
    var lead := LeadingWhiteSpace(s);
    var rest := s[lead..];
    var r := rest[..|rest| - TrailingWhiteSpace(rest)];
    TrimmedSlice(s, lead, rest, r);
    TrimmedEnds(s, lead, rest, r);
    r
  }

  /** The slice `Trim` keeps sits between an all-whitespace prefix and an all-whitespace suffix. */
  lemma TrimmedSlice(s: string, lead: nat, rest: string, r: string)
    requires lead == LeadingWhiteSpace(s) && rest == s[lead..]
    requires r == rest[..|rest| - TrailingWhiteSpace(rest)]
    ensures MatchesAt(s, r, lead) && AllWhiteSpace(s[..lead]) && AllWhiteSpace(s[lead + |r|..])
  {
    assert s[lead + |r|..] == rest[|rest| - TrailingWhiteSpace(rest)..];
  }

  /** The slice `Trim` keeps is empty only for an all-whitespace string, and otherwise has non-whitespace ends. */
  lemma TrimmedEnds(s: string, lead: nat, rest: string, r: string)
    requires lead == LeadingWhiteSpace(s) && rest == s[lead..]
    requires r == rest[..|rest| - TrailingWhiteSpace(rest)]
    ensures r == [] <==> AllWhiteSpace(s)
    ensures r != [] ==> !IsWhiteSpace(r[0]) && !IsWhiteSpace(r[|r| - 1])
  {
    var trail := TrailingWhiteSpace(rest);
    if lead == |s| {
      assert s[..lead] == s;
    } else {
      assert rest[0] == s[lead] && !IsWhiteSpace(rest[0]);
      assert r[0] == rest[0];
      assert r[|r| - 1] == rest[|rest| - trail - 1];
    }
  }

  /** `hay.indexOf(needle, from)`: the first match at or after `from`, or -1. */
  function IndexOfFrom(hay: string, needle: string, from: nat): (r: int)
    requires from <= |hay|
    ensures r == -1 || (from <= r && MatchesAt(hay, needle, r))
    ensures r == -1 ==> forall i :: from <= i ==> !MatchesAt(hay, needle, i)
    ensures r != -1 ==> forall i :: from <= i < r ==> !MatchesAt(hay, needle, i)
    decreases |hay| - from
  {
    if from + |needle| > |hay| then -1
    else if hay[from..from + |needle|] == needle then from
    else
      // A failed match at `from` needs a non-empty needle, so `from < |hay|` here.
      assert from < |hay|;
      IndexOfFrom(hay, needle, from + 1)
  }

  /** `hay.indexOf(needle)`, with positions counted in code points. */
  function IndexOf(hay: string, needle: string): (r: int)
    ensures r == -1 <==> forall i :: !MatchesAt(hay, needle, i)
    ensures r != -1 ==> MatchesAt(hay, needle, r) && forall i :: i < r ==> !MatchesAt(hay, needle, i)
  {
    IndexOfFrom(hay, needle, 0)
  }

  /** `hay.indexOf(needle) !== -1`: `needle` occurs somewhere in `hay`. */
  predicate Contains(hay: string, needle: string) {
    IndexOf(hay, needle) != -1
  }
}

=== FILE: options.dfy ===
/**
 * The options object of `embedStylesheets`, merged over the defaults
 * `{ resolveTo: null, download: true }` the way `Object.assign` does it, and
 * the two switches the pipeline reads from it through JavaScript truthiness.
 */
module Options {
  import opened Wrappers

  /** One key of the caller's object: left out, or present (possibly `null`/`undefined`). */
  datatype Setting<T> = Omitted | Given(value: T)

  /** The caller's `opts`; `Given(None)` is a key explicitly set to `null` or `undefined`. */
  datatype UserOptions = UserOptions(resolveTo: Setting<Option<string>>, download: Setting<Option<bool>>)

  /** The merged options; `None` stands for `null` or `undefined`. */
  datatype Config = Config(resolveTo: Option<string>, download: Option<bool>)

  const Defaults: Config := Config(None, Some(true))

  function Pick<T>(given: Setting<T>, default: T): T {
    match given
    case Omitted => default
    case Given(v) => v
  }

  /** `Object.assign({}, defaultOpts, opts)`. */
  function Merge(user: UserOptions): (c: Config)
    ensures ShouldDownload(c) <==> user.download.Omitted? || user.download == Given(Some(true))
    ensures Base(c).Some? <==>
      user.resolveTo.Given? && user.resolveTo.value.Some? && user.resolveTo.value.value != ""
    ensures Base(c).Some? ==> Base(c).value == user.resolveTo.value.value
  {
    Config(Pick(user.resolveTo, Defaults.resolveTo), Pick(user.download, Defaults.download))
  }

  /**
   * The base URL, present only when `opts.resolveTo` is truthy: `null`,
   * `undefined` and the empty string all switch resolution off.
   */
  function Base(c: Config): Option<string> {
    if c.resolveTo.Some? && c.resolveTo.value != "" then c.resolveTo else None
  }

  /** `opts.download` is truthy. */
  predicate ShouldDownload(c: Config) {
    c.download == Some(true)
  }
}

=== FILE: pipeline.dfy ===
/**
 * `embedStylesheets` (src/index.js:30-103) end to end, with the URL encoder,
 * the URL resolver, the HTTP client and the CSS URL rewriter passed in as
 * functions.
 */
module Pipeline {
  import opened Wrappers
  import opened Seqs
  import opened Dom
  import opened Options
  import opened Discovery
  import opened Resolution
  import opened Fetching
  import opened Embedding

  /** What the returned promise fulfils with. */
  datatype Output = Output(html: Document, stylesheetUrls: seq<string>, stylesheets: seq<string>, notFounds: seq<string>)

  /** The `sources` array after the link filter: head links first, then body links. */
  function Sources(doc: Document, encode: string -> string): seq<string> {
    SweepLinks(doc.head, encode).sources + SweepLinks(doc.body, encode).sources
  }

  /** The document after the consumed links and the stylesheet hints are removed. */
  function Stripped(doc: Document, encode: string -> string): Document {
    Document(RemoveHints(SweepLinks(doc.head, encode).remaining), RemoveHints(SweepLinks(doc.body, encode).remaining))
  }

  /** `Array.from(stylesheetUrls)`. */
  function Urls(doc: Document, user: UserOptions, encode: string -> string, resolve: (string, string) -> string): seq<string> {
    CollectUrls(Sources(doc, encode), Base(Merge(user)), resolve)
  }

  /**
   * The whole pipeline. It rejects only when downloading is on, and then with
   * a URL whose request failed in transport; when it fulfils, the URLs are distinct.
   */
  function EmbedStylesheets(doc: Document, user: UserOptions, encode: string -> string,
                            resolve: (string, string) -> string, fetch: string -> Reply,
                            rewrite: (string, string) -> string): (r: Result<Output, string>)
    ensures r.Failure? ==>
      ShouldDownload(Merge(user)) && r.error in Urls(doc, user, encode, resolve) && fetch(r.error).TransportError?
    ensures r.Success? ==> NoDup(r.value.stylesheetUrls)
  {
    var config := Merge(user);
    var base := Base(config);
    var urls := CollectUrls(Sources(doc, encode), base, resolve);
    var downloaded :=
      if ShouldDownload(config) then DownloadAll(urls, fetch, base, rewrite)
      else Success(Downloads([], []));
    match downloaded
    case Failure(u) => Failure(u)
    case Success(d) => Success(Output(EmbedInto(Stripped(doc, encode), d.stylesheets), urls, d.stylesheets, d.notFounds))
  }

  /**
   * `sources` lists the encoded hrefs of the consumed links in document order,
   * one per consumed link.
   */
  lemma SourcesAreConsumedHrefs(doc: Document, encode: string -> string)
    ensures var consumed := Filter(Nodes(doc), IsConsumed);
      && |Sources(doc, encode)| == |consumed|
      && forall i :: 0 <= i < |consumed| ==> Sources(doc, encode)[i] == encode(Href(consumed[i]))
  {
    FilterConcat(doc.head, doc.body, IsConsumed);
    var ch, cb := Filter(doc.head, IsConsumed), Filter(doc.body, IsConsumed);
    var hs, bs := SweepLinks(doc.head, encode).sources, SweepLinks(doc.body, encode).sources;
    forall i | 0 <= i < |ch + cb| ensures (hs + bs)[i] == encode(Href((ch + cb)[i])) {
      if i < |ch| {
        assert (hs + bs)[i] == hs[i] && (ch + cb)[i] == ch[i];
      } else {
        assert (hs + bs)[i] == bs[i - |ch|] && (ch + cb)[i] == cb[i - |ch|];
      }
    }
  }

  /**
   * Discovery on one run of nodes removes exactly the consumed links and the
   * hints: what is left is the run filtered to its surviving nodes, in order.
   */
  lemma StrippedRun(nodes: seq<Node>, encode: string -> string)
    ensures var kept := RemoveHints(SweepLinks(nodes, encode).remaining);
      && kept == Filter(nodes, Survives)
      && IsSubsequence(kept, nodes)
      && (forall i :: 0 <= i < |kept| ==> kept[i] in nodes && Survives(kept[i]))
      && (forall i :: 0 <= i < |nodes| && Survives(nodes[i]) ==> nodes[i] in kept)
  {
    FilterTwice(nodes, Not(IsConsumed), Not(IsStylesheetHint));
    FilterExt(nodes, And(Not(IsConsumed), Not(IsStylesheetHint)), Survives);
    FilterIsSubsequence(nodes, Survives);
  }

  /** A fulfilled result carries the stripped document with the stored stylesheets embedded. */
  lemma FulfilledShape(doc: Document, user: UserOptions, encode: string -> string,
                       resolve: (string, string) -> string, fetch: string -> Reply,
                       rewrite: (string, string) -> string)
    requires EmbedStylesheets(doc, user, encode, resolve, fetch, rewrite).Success?
    ensures var out := EmbedStylesheets(doc, user, encode, resolve, fetch, rewrite).value;
      && out.html == EmbedInto(Stripped(doc, encode), out.stylesheets)
      && out.stylesheetUrls == Urls(doc, user, encode, resolve)
  {
  }

  /**
   * The stripped document holds exactly the surviving nodes of the original,
   * in their original order, head and body each filtered on their own.
   */
  lemma StrippedDocument(doc: Document, encode: string -> string)
    ensures var stripped := Stripped(doc, encode);
      && stripped.head == Filter(doc.head, Survives)
      && stripped.body == Filter(doc.body, Survives)
      && Nodes(stripped) == Filter(Nodes(doc), Survives)
      && (forall i :: 0 <= i < |Nodes(stripped)| ==> Nodes(stripped)[i] in Nodes(doc) && Survives(Nodes(stripped)[i]))
      && (forall i :: 0 <= i < |Nodes(doc)| && Survives(Nodes(doc)[i]) ==> Nodes(doc)[i] in Nodes(stripped))
      && IsSubsequence(stripped.body, doc.body)
  {
    StrippedRun(doc.head, encode);
    StrippedRun(doc.body, encode);
    FilterConcat(doc.head, doc.body, Survives);
  }

  /**
   * The returned document: only the consumed links and the stylesheet hints
   * are removed (so a matched link whose href is blank stays), everything
   * else keeps its place, and the head gains exactly the stored stylesheets
   * as style blocks at its end, in order.
   */
  lemma OutputDocument(doc: Document, user: UserOptions, encode: string -> string,
                       resolve: (string, string) -> string, fetch: string -> Reply,
                       rewrite: (string, string) -> string)
    requires EmbedStylesheets(doc, user, encode, resolve, fetch, rewrite).Success?
    ensures var out := EmbedStylesheets(doc, user, encode, resolve, fetch, rewrite).value;
      && out.html.head == Filter(doc.head, Survives) + StyleBlocks(out.stylesheets)
      && out.html.body == Filter(doc.body, Survives)
      && (forall n :: n in Nodes(out.html) ==> n.Style? || (n in Nodes(doc) && Survives(n)))
      && (forall n :: n in Nodes(doc) && Survives(n) ==> n in Nodes(out.html))
      && IsSubsequence(out.html.body, doc.body)
      && StylesIn(out.html.head) == StylesIn(Stripped(doc, encode).head) + out.stylesheets
  {
    var out := EmbedStylesheets(doc, user, encode, resolve, fetch, rewrite).value;
    FulfilledShape(doc, user, encode, resolve, fetch, rewrite);
    EmbeddedStripped(doc, encode, out.stylesheets);
  }

  /** The stripped document with `sheets` embedded, as `OutputDocument` describes it. */
  lemma EmbeddedStripped(doc: Document, encode: string -> string, sheets: seq<string>)
    ensures var html := EmbedInto(Stripped(doc, encode), sheets);
      && html.head == Filter(doc.head, Survives) + StyleBlocks(sheets)
      && html.body == Filter(doc.body, Survives)
      && (forall n :: n in Nodes(html) ==> n.Style? || (n in Nodes(doc) && Survives(n)))
      && (forall n :: n in Nodes(doc) && Survives(n) ==> n in Nodes(html))
      && IsSubsequence(html.body, doc.body)
      && StylesIn(html.head) == StylesIn(Stripped(doc, encode).head) + sheets
  {
    var stripped := Stripped(doc, encode);
    var html := EmbedInto(stripped, sheets);
    var head, body := Filter(doc.head, Survives), Filter(doc.body, Survives);
    StrippedDocument(doc, encode);
    AppendedStylesReadBack(stripped.head, sheets);
    assert Nodes(html) == head + StyleBlocks(sheets) + body;
    forall n | n in Nodes(html) ensures n.Style? || (n in Nodes(doc) && Survives(n)) {
      if n in head {
        FilterMembership(doc.head, Survives, n);
      } else if n in body {
        FilterMembership(doc.body, Survives, n);
      }
    }
    forall n | n in Nodes(doc) && Survives(n) ensures n in Nodes(html) {
      if n in doc.head {
        FilterMembership(doc.head, Survives, n);
      } else {
        FilterMembership(doc.body, Survives, n);
      }
    }
  }

  /**
   * With downloading off nothing is fetched: the result fulfils with the
   * stripped document unchanged, the URLs, and no stylesheets or not-founds.
   */
  lemma NoDownloadNoFetch(doc: Document, user: UserOptions, encode: string -> string,
                          resolve: (string, string) -> string, fetch: string -> Reply,
                          rewrite: (string, string) -> string)
    requires !ShouldDownload(Merge(user))
    ensures EmbedStylesheets(doc, user, encode, resolve, fetch, rewrite)
      == Success(Output(Stripped(doc, encode), Urls(doc, user, encode, resolve), [], []))
  {
    assert AppendStyles(Stripped(doc, encode).head, []) == Stripped(doc, encode).head;
  }

  /** With downloading on, the pipeline settles as the download loop does. */
  lemma DownloadSettles(doc: Document, user: UserOptions, encode: string -> string,
                        resolve: (string, string) -> string, fetch: string -> Reply,
                        rewrite: (string, string) -> string)
    requires ShouldDownload(Merge(user))
    ensures var r := EmbedStylesheets(doc, user, encode, resolve, fetch, rewrite);
      var d := DownloadAll(Urls(doc, user, encode, resolve), fetch, Base(Merge(user)), rewrite);
      && (r.Failure? <==> d.Failure?)
      && (r.Failure? ==> r.error == d.error)
      && (r.Success? ==> r.value.stylesheets == d.value.stylesheets && r.value.notFounds == d.value.notFounds)
  {
  }

  /**
   * The promise rejects exactly when downloading is on and some URL's request
   * fails in transport; it then rejects with the first such URL.
   */
  lemma RejectsOnTransportError(doc: Document, user: UserOptions, encode: string -> string,
                                resolve: (string, string) -> string, fetch: string -> Reply,
                                rewrite: (string, string) -> string)
    ensures var r := EmbedStylesheets(doc, user, encode, resolve, fetch, rewrite);
      var urls := Urls(doc, user, encode, resolve);
      && (r.Failure? <==> ShouldDownload(Merge(user)) && !AllReachable(urls, fetch))
      && (r.Failure? ==> exists k :: FirstUnreachable(urls, fetch, k) && urls[k] == r.error)
  {
    if ShouldDownload(Merge(user)) {
      DownloadSettles(doc, user, encode, resolve, fetch, rewrite);
    } else {
      NoDownloadNoFetch(doc, user, encode, resolve, fetch, rewrite);
    }
  }

  /**
   * The URLs are the distinct located sources in order of first discovery:
   * each source's located form is listed, and without a base they are the
   * distinct encoded hrefs themselves.
   */
  lemma UrlsAreDistinctSources(doc: Document, user: UserOptions, encode: string -> string,
                               resolve: (string, string) -> string)
    ensures var urls := Urls(doc, user, encode, resolve);
      var sources := Sources(doc, encode);
      var base := Base(Merge(user));
      && urls == Distinct(LocateAll(sources, base, resolve))
      && (forall i :: 0 <= i < |sources| ==> Locate(sources[i], base, resolve) in urls)
      && (base.None? ==> urls == Distinct(sources))
      && (user.resolveTo.Omitted? ==> urls == Distinct(sources))
  {
    var sources := Sources(doc, encode);
    CollectUrlsIsDistinct(sources, Base(Merge(user)), resolve);
    if Base(Merge(user)).None? {
      UnresolvedWithoutBase(sources, resolve);
    }
  }

  /**
   * A completed download files each URL in exactly one list: the not-founds
   * are the URLs with unusable replies, in order and without repeats, and
   * the stylesheets are the stored bodies of the others, in order. A body is
   * rewritten against its own URL only when a base is set.
   */
  lemma DownloadPartition(doc: Document, user: UserOptions, encode: string -> string,
                          resolve: (string, string) -> string, fetch: string -> Reply,
                          rewrite: (string, string) -> string)
    requires ShouldDownload(Merge(user))
    requires EmbedStylesheets(doc, user, encode, resolve, fetch, rewrite).Success?
    ensures var out := EmbedStylesheets(doc, user, encode, resolve, fetch, rewrite).value;
      var urls := out.stylesheetUrls;
      var usable := Filter(urls, Usable(fetch));
      && |out.stylesheets| + |out.notFounds| == |urls|
      && IsSubsequence(out.notFounds, urls)
      && NoDup(out.notFounds)
      && (forall i :: 0 <= i < |urls| ==> (urls[i] in out.notFounds <==> !IsUsable(fetch(urls[i]))))
      && |out.stylesheets| == |usable|
      && (forall i :: 0 <= i < |usable| ==> (out.stylesheets[i] ==
            if Base(Merge(user)).Some? then rewrite(fetch(usable[i]).body, usable[i]) else fetch(usable[i]).body))
  {
    var out := EmbedStylesheets(doc, user, encode, resolve, fetch, rewrite).value;
    var urls := Urls(doc, user, encode, resolve);
    var base := Base(Merge(user));
    FulfilledShape(doc, user, encode, resolve, fetch, rewrite);
    DownloadSettles(doc, user, encode, resolve, fetch, rewrite);
    PartitionOfDistinctUrls(urls, fetch, base, rewrite);
    var usable := Filter(urls, Usable(fetch));
    forall i | 0 <= i < |usable| ensures fetch(usable[i]).Response? {
      assert usable[i] in urls;
    }
  }

  /** A run holding no consumed link and no hint passes through discovery unchanged. */
  lemma CleanRunUnchanged(nodes: seq<Node>, encode: string -> string)
    requires forall i :: 0 <= i < |nodes| ==> Survives(nodes[i])
    ensures SweepLinks(nodes, encode) == Sweep(nodes, [])
    ensures RemoveHints(nodes) == nodes
  {
    FilterKeepsAll(nodes, Not(IsConsumed));
    FilterKeepsNone(nodes, IsConsumed);
    FilterKeepsAll(nodes, Not(IsPreloadHint));
    FilterKeepsAll(nodes, Not(IsPrefetchHint));
  }

  /**
   * A document with no consumed link and no hint comes back unchanged, with
   * no URLs, no stylesheets and no not-founds, and nothing is fetched.
   */
  lemma CleanDocumentUnchanged(html: Document, user: UserOptions, encode: string -> string,
                               resolve: (string, string) -> string, fetch: string -> Reply,
                               rewrite: (string, string) -> string)
    requires forall i :: 0 <= i < |Nodes(html)| ==> Survives(Nodes(html)[i])
    ensures EmbedStylesheets(html, user, encode, resolve, fetch, rewrite) == Success(Output(html, [], [], []))
  {
    forall i | 0 <= i < |html.head| ensures Survives(html.head[i]) {
      assert html.head[i] == Nodes(html)[i];
    }
    forall i | 0 <= i < |html.body| ensures Survives(html.body[i]) {
      assert html.body[i] == Nodes(html)[|html.head| + i];
    }
    CleanPartsUnchanged(html, user, encode, resolve, fetch, rewrite);
  }

  /** `CleanDocumentUnchanged`, with the head and the body checked separately. */
  lemma CleanPartsUnchanged(html: Document, user: UserOptions, encode: string -> string,
                            resolve: (string, string) -> string, fetch: string -> Reply,
                            rewrite: (string, string) -> string)
    requires forall i :: 0 <= i < |html.head| ==> Survives(html.head[i])
    requires forall i :: 0 <= i < |html.body| ==> Survives(html.body[i])
    ensures EmbedStylesheets(html, user, encode, resolve, fetch, rewrite) == Success(Output(html, [], [], []))
  {
    CleanRunUnchanged(html.head, encode);
    CleanRunUnchanged(html.body, encode);
    assert Stripped(html, encode) == html;
    assert Sources(html, encode) == [];
    assert AppendStyles(html.head, []) == html.head;
  }

  /**
   * Running the pipeline again on its own output finds nothing: no sources,
   * no URLs, no fetch, and the document comes back unchanged, whatever the
   * options and collaborators of the second run.
   */
  lemma SecondPassIsIdentity(doc: Document, user: UserOptions, encode: string -> string,
                             resolve: (string, string) -> string, fetch: string -> Reply,
                             rewrite: (string, string) -> string,
                             user': UserOptions, encode': string -> string,
                             resolve': (string, string) -> string, fetch': string -> Reply,
                             rewrite': (string, string) -> string)
    requires EmbedStylesheets(doc, user, encode, resolve, fetch, rewrite).Success?
    ensures var html := EmbedStylesheets(doc, user, encode, resolve, fetch, rewrite).value.html;
      EmbedStylesheets(html, user', encode', resolve', fetch', rewrite') == Success(Output(html, [], [], []))
  {
    var out := EmbedStylesheets(doc, user, encode, resolve, fetch, rewrite).value;
    FulfilledShape(doc, user, encode, resolve, fetch, rewrite);
    EmbeddedStripped(doc, encode, out.stylesheets);
    EmbeddedNodesSurvive(doc, out.stylesheets, out.html);
    CleanPartsUnchanged(out.html, user', encode', resolve', fetch', rewrite');
  }

  /** Every node of a stripped document with style blocks appended survives discovery. */
  lemma EmbeddedNodesSurvive(doc: Document, sheets: seq<string>, html: Document)
    requires html.head == Filter(doc.head, Survives) + StyleBlocks(sheets)
    requires html.body == Filter(doc.body, Survives)
    ensures forall i :: 0 <= i < |html.head| ==> Survives(html.head[i])
    ensures forall i :: 0 <= i < |html.body| ==> Survives(html.body[i])
  {
    var kept := Filter(doc.head, Survives);
    forall i | 0 <= i < |html.head| ensures Survives(html.head[i]) {
      if i >= |kept| {
        assert html.head[i] == Style(sheets[i - |kept|]);
        assert !html.head[i].Element?;
      } else {
        assert html.head[i] == kept[i];
      }
    }
  }
}

=== FILE: resolution.dfy ===
/**
 * Resolution and deduplication (src/index.js:57-63): every source is resolved
 * against the base when there is one and added to a `Set`, whose iteration
 * order becomes `stylesheetUrls`.
 */
module Resolution {
  import opened Wrappers
  import opened Seqs

  /** The URL a source is fetched from: `url.resolve(resolveTo, source)` when a base is set, the source itself otherwise. */
  function Locate(source: string, base: Option<string>, resolve: (string, string) -> string): string {
    if base.Some? then resolve(base.value, source) else source
  }

  /** Every source located, in order. */
  function LocateAll(sources: seq<string>, base: Option<string>, resolve: (string, string) -> string): (r: seq<string>)
    ensures |r| == |sources|
    ensures forall i :: 0 <= i < |sources| ==> r[i] == Locate(sources[i], base, resolve)
  {
    seq(|sources|, i requires 0 <= i < |sources| => Locate(sources[i], base, resolve))
  }

  /**
   * The `for (source of sources) stylesheetUrls.add(...)` loop, as the set's
   * iteration order after each step. The URLs are distinct, every source's
   * located form is among them, and each of them is the located form of some source.
   */
  function CollectUrls(sources: seq<string>, base: Option<string>, resolve: (string, string) -> string): (urls: seq<string>)
    ensures NoDup(urls)
    ensures forall i :: 0 <= i < |sources| ==> Locate(sources[i], base, resolve) in urls
    ensures forall i :: 0 <= i < |urls| ==>
      exists j :: 0 <= j < |sources| && urls[i] == Locate(sources[j], base, resolve)
    ensures |urls| <= |sources|
  {
    if |sources| == 0 then []
    else
      var init := sources[..|sources| - 1];
      var urls := Add(CollectUrls(init, base, resolve), Locate(sources[|sources| - 1], base, resolve));
      assert forall i :: 0 <= i < |init| ==> init[i] == sources[i];
      urls
  }

  /** The collected URLs are the distinct located sources, in order of first occurrence. */
  lemma {:induction false} CollectUrlsIsDistinct(sources: seq<string>, base: Option<string>, resolve: (string, string) -> string)
    ensures CollectUrls(sources, base, resolve) == Distinct(LocateAll(sources, base, resolve))
  {
    if |sources| > 0 {
      var init := sources[..|sources| - 1];
      CollectUrlsIsDistinct(init, base, resolve);
      assert LocateAll(sources, base, resolve)[..|sources| - 1] == LocateAll(init, base, resolve);
    }
  }

  /** Without a base nothing is resolved: the URLs are the distinct sources themselves. */
  lemma UnresolvedWithoutBase(sources: seq<string>, resolve: (string, string) -> string)
    ensures CollectUrls(sources, None, resolve) == Distinct(sources)
  {
    CollectUrlsIsDistinct(sources, None, resolve);
    assert LocateAll(sources, None, resolve) == sources;
  }

  /**
   * The URLs are listed in order of first discovery: a URL listed before
   * another was first produced by an earlier source.
   */
  lemma UrlsInDiscoveryOrder(sources: seq<string>, base: Option<string>, resolve: (string, string) -> string)
    ensures var urls := CollectUrls(sources, base, resolve);
      forall i, j :: 0 <= i < j < |urls| ==>
        FirstIndex(LocateAll(sources, base, resolve), urls[i]) < FirstIndex(LocateAll(sources, base, resolve), urls[j])
  {
    CollectUrlsIsDistinct(sources, base, resolve);
    DistinctInFirstOccurrenceOrder(LocateAll(sources, base, resolve));
  }
}

=== FILE: scenarios.dfy ===
/**
 * Concrete documents from the repository's discovery tests, passed to
 * `EmbedStylesheets` with downloading off and any encoder and resolver.
 */
module Scenarios {
  import opened Wrappers
  import opened JsText
  import opened Dom
  import opened Options
  import opened Discovery
  import opened Resolution
  import opened Fetching
  import opened Pipeline

  /** `<link type="text/css">` with an optional href. */
  function TypeLink(href: Option<string>): Node {
    if href.Some? then Element("link", map["type" := "text/css", "href" := href.value])
    else Element("link", map["type" := "text/css"])
  }

  /** `<link rel="stylesheet" href=...>`, optionally also with `type="text/css"`. */
  function RelLink(href: string, typed: bool): Node {
    if typed then Element("link", map["type" := "text/css", "rel" := "stylesheet", "href" := href])
    else Element("link", map["rel" := "stylesheet", "href" := href])
  }

  const NoDownload: UserOptions := UserOptions(Omitted, Given(Some(false)))

  lemma NoDownloadSwitches()
    ensures Base(Merge(NoDownload)) == None && !ShouldDownload(Merge(NoDownload))
  {
  }

  lemma BlankTypeLinkSurvives(href: Option<string>)
    requires href.Some? ==> AllWhiteSpace(href.value)
    ensures Survives(TypeLink(href))
  {
    var n := TypeLink(href);
    assert "rel" !in n.attrs;
  }

  /** The three links of the blank-href tests: no href, an empty href, a whitespace-only href. */
  function BlankLinks(blank: string): seq<Node> {
    [TypeLink(None), TypeLink(Some("")), TypeLink(Some(blank))]
  }

  /**
   * Links without an href, with an empty href and with a whitespace-only
   * href (the tests use a single space) yield no URL, and all three stay in
   * the document.
   */
  lemma BlankHrefsYieldNothing(blank: string, encode: string -> string, resolve: (string, string) -> string,
                               fetch: string -> Reply, rewrite: (string, string) -> string)
    requires AllWhiteSpace(blank)
    ensures EmbedStylesheets(Document([], BlankLinks(blank)), NoDownload, encode, resolve, fetch, rewrite)
      == Success(Output(Document([], BlankLinks(blank)), [], [], []))
  {
    BlankTypeLinkSurvives(None);
    BlankTypeLinkSurvives(Some(""));
    BlankTypeLinkSurvives(Some(blank));
    CleanPartsUnchanged(Document([], BlankLinks(blank)), NoDownload, encode, resolve, fetch, rewrite);
  }

  /** The three links of the duplicates test: matched by type, by rel, and by both. */
  const MainCssLinks: seq<Node> := [TypeLink(Some("main.css")), RelLink("main.css", false), RelLink("main.css", true)]

  lemma HrefLinkConsumed(n: Node, href: string)
    requires n == TypeLink(Some(href)) || n == RelLink(href, false) || n == RelLink(href, true)
    requires !AllWhiteSpace(href)
    ensures IsConsumed(n) && Href(n) == href
  {
  }

  /** A consumed link at the front of a run adds its source and leaves nothing behind. */
  lemma ConsumedLinkSweeps(n: Node, rest: seq<Node>, encode: string -> string)
    requires IsConsumed(n)
    ensures SweepLinks([n] + rest, encode)
      == Sweep(SweepLinks(rest, encode).remaining, [encode(Href(n))] + SweepLinks(rest, encode).sources)
  {
    assert ([n] + rest)[1..] == rest;
  }

  /** The three ways of linking one non-blank href are all consumed, each adding that href once. */
  lemma SameHrefLinksConsumed(href: string, encode: string -> string)
    requires !AllWhiteSpace(href)
    ensures var links := [TypeLink(Some(href)), RelLink(href, false), RelLink(href, true)];
      SweepLinks(links, encode) == Sweep([], [encode(href), encode(href), encode(href)])
  {
    HrefLinkConsumed(TypeLink(Some(href)), href);
    HrefLinkConsumed(RelLink(href, false), href);
    HrefLinkConsumed(RelLink(href, true), href);
    ConsumedTriple(TypeLink(Some(href)), RelLink(href, false), RelLink(href, true), encode);
  }

  /** Three consumed links in a row vanish, leaving their three sources. */
  lemma ConsumedTriple(a: Node, b: Node, c: Node, encode: string -> string)
    requires IsConsumed(a) && IsConsumed(b) && IsConsumed(c)
    ensures SweepLinks([a, b, c], encode) == Sweep([], [encode(Href(a)), encode(Href(b)), encode(Href(c))])
  {
    ConsumedPair(b, c, encode);
    assert [a] + [b, c] == [a, b, c];
    ConsumedLinkSweeps(a, [b, c], encode);
  }

  lemma ConsumedPair(b: Node, c: Node, encode: string -> string)
    requires IsConsumed(b) && IsConsumed(c)
    ensures SweepLinks([b, c], encode) == Sweep([], [encode(Href(b)), encode(Href(c))])
  {
    ConsumedSingle(c, encode);
    assert [b] + [c] == [b, c];
    ConsumedLinkSweeps(b, [c], encode);
  }

  lemma ConsumedSingle(c: Node, encode: string -> string)
    requires IsConsumed(c)
    ensures SweepLinks([c], encode) == Sweep([], [encode(Href(c))])
  {
    assert [c][1..] == [];
  }

  lemma MainCssLinksConsumed(encode: string -> string)
    ensures SweepLinks(MainCssLinks, encode) == Sweep([], [encode("main.css"), encode("main.css"), encode("main.css")])
  {
    assert !IsWhiteSpace("main.css"[0]);
    SameHrefLinksConsumed("main.css", encode);
  }

  /** A document made of one consumed link yields that link's encoded href as its only URL and loses the link. */
  lemma ConsumedLinkOneUrl(n: Node, encode: string -> string, resolve: (string, string) -> string,
                           fetch: string -> Reply, rewrite: (string, string) -> string)
    requires IsConsumed(n)
    ensures EmbedStylesheets(Document([], [n]), NoDownload, encode, resolve, fetch, rewrite)
      == Success(Output(Document([], []), [encode(Href(n))], [], []))
  {
    var doc := Document([], [n]);
    ConsumedSingle(n, encode);
    assert SweepLinks([], encode) == Sweep([], []);
    assert Sources(doc, encode) == [encode(Href(n))];
    NoDownloadSwitches();
    assert Urls(doc, NoDownload, encode, resolve) == [encode(Href(n))] by {
      assert [encode(Href(n))][..0] == [];
    }
    assert Stripped(doc, encode) == Document([], []);
    NoDownloadNoFetch(doc, NoDownload, encode, resolve, fetch, rewrite);
  }

  /**
   * One `<link type="text/css">` with a non-blank href (the test uses
   * `main.css`) yields exactly one URL, its encoded href, and is removed.
   */
  lemma SingleTypeLinkOneUrl(href: string, encode: string -> string, resolve: (string, string) -> string,
                             fetch: string -> Reply, rewrite: (string, string) -> string)
    requires !AllWhiteSpace(href)
    ensures EmbedStylesheets(Document([], [TypeLink(Some(href))]), NoDownload, encode, resolve, fetch, rewrite)
      == Success(Output(Document([], []), [encode(href)], [], []))
  {
    HrefLinkConsumed(TypeLink(Some(href)), href);
    ConsumedLinkOneUrl(TypeLink(Some(href)), encode, resolve, fetch, rewrite);
  }

  /**
   * One `<link rel="stylesheet">` with a non-blank href (the test uses
   * `main.css`) yields exactly one URL, its encoded href, and is removed.
   */
  lemma SingleRelLinkOneUrl(href: string, encode: string -> string, resolve: (string, string) -> string,
                            fetch: string -> Reply, rewrite: (string, string) -> string)
    requires !AllWhiteSpace(href)
    ensures EmbedStylesheets(Document([], [RelLink(href, false)]), NoDownload, encode, resolve, fetch, rewrite)
      == Success(Output(Document([], []), [encode(href)], [], []))
  {
    HrefLinkConsumed(RelLink(href, false), href);
    ConsumedLinkOneUrl(RelLink(href, false), encode, resolve, fetch, rewrite);
  }

  lemma ThreeEqualSourcesOneUrl(s: string, resolve: (string, string) -> string)
    ensures CollectUrls([s, s, s], None, resolve) == [s]
  {
    assert [s, s, s][..2] == [s, s];
    assert [s, s][..1] == [s];
  }

  lemma MainCssUrls(encode: string -> string, resolve: (string, string) -> string)
    ensures Urls(Document([], MainCssLinks), NoDownload, encode, resolve) == [encode("main.css")]
  {
    var s := encode("main.css");
    MainCssLinksConsumed(encode);
    assert Sources(Document([], MainCssLinks), encode) == [s, s, s];
    ThreeEqualSourcesOneUrl(s, resolve);
    NoDownloadSwitches();
  }

  lemma MainCssStripped(encode: string -> string)
    ensures Stripped(Document([], MainCssLinks), encode) == Document([], [])
  {
    MainCssLinksConsumed(encode);
  }

  /**
   * Three links to `main.css`, matched by type, by rel and by both, yield a
   * single URL when no base is given, and all three links are removed.
   */
  lemma DuplicateLinksYieldOneUrl(encode: string -> string, resolve: (string, string) -> string,
                                  fetch: string -> Reply, rewrite: (string, string) -> string)
    ensures EmbedStylesheets(Document([], MainCssLinks), NoDownload, encode, resolve, fetch, rewrite)
      == Success(Output(Document([], []), [encode("main.css")], [], []))
  {
    MainCssUrls(encode, resolve);
    MainCssStripped(encode);
    NoDownloadSwitches();
    NoDownloadNoFetch(Document([], MainCssLinks), NoDownload, encode, resolve, fetch, rewrite);
  }
}

=== FILE: seqs.dfy ===
/**
 * Sequence vocabulary shared by the pipeline: order-preserving filtering,
 * subsequences, distinctness, and the insertion-ordered set that a
 * JavaScript `Set` iterates as.
 */
module Seqs {

  /** The negation of a predicate, as a value. */
  function Not<T>(p: T -> bool): T -> bool {
    x => !p(x)
  }

  /** The conjunction of two predicates, as a value. */
  function And<T>(p: T -> bool, q: T -> bool): T -> bool {
    x => p(x) && q(x)
  }

  /** The elements of `s` that satisfy `p`, in their original order (`Array.prototype.filter`). */
  function Filter<T>(s: seq<T>, p: T -> bool): (r: seq<T>)
    ensures |r| <= |s|
    ensures forall i :: 0 <= i < |r| ==> p(r[i])
    ensures forall i :: 0 <= i < |s| && p(s[i]) ==> s[i] in r
    ensures forall i :: 0 <= i < |r| ==> r[i] in s
  {
    if |s| == 0 then []
    else if p(s[0]) then [s[0]] + Filter(s[1..], p)
    else Filter(s[1..], p)
  }

  /** `a` can be obtained from `b` by deleting elements. */
  predicate IsSubsequence<T(==)>(a: seq<T>, b: seq<T>)
    decreases |b|
  {
    if |a| == 0 then true
    else if |b| == 0 then false
    else if a[0] == b[0] then IsSubsequence(a[1..], b[1..])
    else IsSubsequence(a, b[1..])
  }

  /** No element occurs twice. */
  predicate NoDup<T(==)>(s: seq<T>) {
    forall i, j :: 0 <= i < j < |s| ==> s[i] != s[j]
  }

  /** Position of the first occurrence of `x` in `s`. */
  function FirstIndex<T(==)>(s: seq<T>, x: T): (k: nat)
    requires x in s
    ensures k < |s| && s[k] == x && x !in s[..k]
  {
    if s[0] == x then 0
    else
      var k := 1 + FirstIndex(s[1..], x);
      assert s[..k] == [s[0]] + s[1..][..k - 1];
      k
  }

  /** `set.add(x)` on an insertion-ordered set kept as its iteration sequence. */
  function Add<T(==)>(members: seq<T>, x: T): seq<T> {
    if x in members then members else members + [x]
  }

  /**
   * Adding the elements of `s` one by one to an empty insertion-ordered set:
   * the set's iteration order after the loop. The result holds every element
   * of `s` exactly once.
   */
  function Distinct<T(==)>(s: seq<T>): (r: seq<T>)
    ensures NoDup(r)
    ensures forall i :: 0 <= i < |r| ==> r[i] in s
    ensures forall i :: 0 <= i < |s| ==> s[i] in r
    ensures |r| <= |s|
  {
    if |s| == 0 then [] else Add(Distinct(s[..|s| - 1]), s[|s| - 1])
  }

  /** Filtering preserves order: the kept elements form a subsequence. */
  lemma {:induction false} FilterIsSubsequence<T>(s: seq<T>, p: T -> bool)
    ensures IsSubsequence(Filter(s, p), s)
  {
    if |s| > 0 {
      FilterIsSubsequence(s[1..], p);
      var r := Filter(s, p);
      if !p(s[0]) && |r| > 0 {
        assert p(r[0]);
      }
    }
  }

  /** Predicates that agree on every element of `s` filter it alike. */
  lemma {:induction false} FilterExt<T>(s: seq<T>, p: T -> bool, q: T -> bool)
    requires forall i :: 0 <= i < |s| ==> p(s[i]) == q(s[i])
    ensures Filter(s, p) == Filter(s, q)
  {
    if |s| > 0 {
      FilterExt(s[1..], p, q);
    }
  }

  /** An element of `s` is kept by the filter exactly when it satisfies the predicate. */
  lemma FilterMembership<T>(s: seq<T>, p: T -> bool, x: T)
    requires x in s
    ensures x in Filter(s, p) <==> p(x)
  {
    if x in Filter(s, p) {
      var i :| 0 <= i < |Filter(s, p)| && Filter(s, p)[i] == x;
    }
  }

  /** Filtering a sequence without duplicates yields one without duplicates. */
  lemma {:induction false} FilterNoDup<T>(s: seq<T>, p: T -> bool)
    requires NoDup(s)
    ensures NoDup(Filter(s, p))
  {
    if |s| > 0 {
      assert NoDup(s[1..]) by {
        forall i, j | 0 <= i < j < |s[1..]| ensures s[1..][i] != s[1..][j] {
          assert s[1..][i] == s[i + 1] && s[1..][j] == s[j + 1];
        }
      }
      FilterNoDup(s[1..], p);
      assert s[0] !in s[1..];
    }
  }

  /** Two filters in a row keep what one filter by the conjunction keeps. */
  lemma {:induction false} FilterTwice<T>(s: seq<T>, p: T -> bool, q: T -> bool)
    ensures Filter(Filter(s, p), q) == Filter(s, And(p, q))
  {
    if |s| > 0 {
      FilterTwice(s[1..], p, q);
      if p(s[0]) {
        assert Filter(s, p) == [s[0]] + Filter(s[1..], p);
        assert Filter(s, p)[1..] == Filter(s[1..], p);
      }
    }
  }

  /** Filtering distributes over concatenation. */
  lemma {:induction false} FilterConcat<T>(a: seq<T>, b: seq<T>, p: T -> bool)
    ensures Filter(a + b, p) == Filter(a, p) + Filter(b, p)
  {
    if |a| == 0 {
      assert a + b == b;
    } else {
      assert (a + b)[1..] == a[1..] + b;
      FilterConcat(a[1..], b, p);
    }
  }

  /** A filter that rejects nothing leaves the sequence unchanged. */
  lemma {:induction false} FilterKeepsAll<T>(s: seq<T>, p: T -> bool)
    requires forall i :: 0 <= i < |s| ==> p(s[i])
    ensures Filter(s, p) == s
  {
    if |s| > 0 {
      FilterKeepsAll(s[1..], p);
    }
  }

  /** A filter that accepts nothing yields the empty sequence. */
  lemma {:induction false} FilterKeepsNone<T>(s: seq<T>, p: T -> bool)
    requires forall i :: 0 <= i < |s| ==> !p(s[i])
    ensures Filter(s, p) == []
  {
    if |s| > 0 {
      FilterKeepsNone(s[1..], p);
    }
  }

  /**
   * `Distinct` keeps elements in order of first occurrence: an element listed
   * earlier was first seen earlier in the input.
   */
  lemma {:induction false} DistinctInFirstOccurrenceOrder<T>(s: seq<T>)
    ensures forall i, j :: 0 <= i < j < |Distinct(s)| ==>
      FirstIndex(s, Distinct(s)[i]) < FirstIndex(s, Distinct(s)[j])
  {
    if |s| > 0 {
      var init := s[..|s| - 1];
      var last := s[|s| - 1];
      var d := Distinct(init);
      DistinctInFirstOccurrenceOrder(init);
      assert s == init + [last];
      forall y | y in init ensures FirstIndex(s, y) == FirstIndex(init, y) {
        FirstIndexOfPrefix(init, [last], y);
      }
      if last !in d {
        assert last !in init;
        assert FirstIndex(s, last) == |s| - 1 by {
          assert s[..|s| - 1] == init;
        }
      }
    }
  }

  lemma FirstIndexOfPrefix<T>(a: seq<T>, b: seq<T>, x: T)
    requires x in a
    ensures FirstIndex(a + b, x) == FirstIndex(a, x)
  {
    var k := FirstIndex(a, x);
    assert (a + b)[k] == x;
    assert (a + b)[..k] == a[..k];
  }

  /** On a sequence that is already free of duplicates, `Distinct` is the identity. */
  lemma {:induction false} DistinctOfNoDup<T>(s: seq<T>)
    requires NoDup(s)
    ensures Distinct(s) == s
  {
    if |s| > 0 {
      var init := s[..|s| - 1];
      assert NoDup(init);
      DistinctOfNoDup(init);
      assert s[|s| - 1] !in init;
      assert init + [s[|s| - 1]] == s;
    }
  }
}

=== FILE: wrappers.dfy ===
/** Optional values and settled outcomes, used across the model. */
module Wrappers {

  /** A value that may be missing: an absent attribute, header or option. */
  datatype Option<+T> = None | Some(value: T)

  /** The settled state of a promise: fulfilled with a value or rejected with a reason. */
  datatype Result<+R, +E> = Success(value: R) | Failure(error: E)
}
